=== FILE: README.md ===
# Squat repetition counter — a Dafny model

This project models the squat detector of a browser pose-tracking app. A pose
estimator supplies 33 normalised body landmarks per video frame. From them,
`detectSquat` derives knee angles, hip and knee heights and back tilt. It
decides when a squat repetition is complete, counts it, plays a reward sound
and shows posture advice as toasts.

The repository has two generations of the detector, and both are modelled:

- **Windowed detector** (`src/app/components/DeepSquat.tsx`, module
  `SquatDetector`). It needs all eight shoulder, hip, knee and ankle landmarks
  to be visible. It pushes one sample per visible frame into a 30-entry FIFO
  history. Until that history is full it only reports that it is warming up.
  After that it drives the cycle `standing → squatting → returning → standing`
  from the window means, and counts a repetition on the last edge. It also
  picks one of two advice messages.
- **Legacy detector** (`src/DeepSquat.tsx`, module `LegacySquatDetector`). It
  needs the six hip, knee and ankle landmarks. It judges every frame on its
  own and counts a repetition when the state goes `squatting → standing`.

Supporting modules:

- `Numeric`: JavaScript numbers as finite reals or NaN, and window means.
- `Geometry`: landmarks, the visibility test, the clamped joint angle and the
  back tilt.
- `SlidingWindow`: the history buffer.
- `Progress`: facts about integer sequences that rise by at most one per step.
  They are used to show which states a run must pass through.

State that the source keeps in module-level or React variables becomes explicit
values here. These are the `history` array, `squatStateRef` and `squatCount`.
One frame is a pure function `Step`. In `SquatDetector` it is
`Step(trig, detector, frame) -> outcome`, where the frame holds the landmarks
and the time, and the outcome carries the new detector, the toast raised and
whether the reward was played. In `LegacySquatDetector` it is
`Step(trig, detector, landmarks) -> outcome`, and the outcome carries only the
new detector and whether the reward was played, since the legacy detector
raises no toasts. A run over many frames is the sequence of detectors it passes through,
as described by `IsRun`.

**Numbers.** Coordinates, heights and tilts are reals. A joint angle can be
NaN. In `calculateAngle`, a zero-length limb vector gives the cosine 0/0. NaN
then spreads through every mean, and every comparison with it is false. A
non-zero value divided by zero is an infinity, which the clamp turns into ±1.
The model keeps both cases, and proves what they cause:

- In the windowed detector, one NaN sample freezes the machine and silences
  the advice for as long as it stays in the window (`DegenerateSampleFreezes`).
- In the legacy detector, a NaN angle while squatting ends the squat and
  counts a repetition (`DegenerateLegEndsSquat`).

**Floating-point primitives.** The primitives are fields of a `Trig` value
passed to every step, and they are left uninterpreted:

- `length`, for the vector length `Math.sqrt(x ** 2 + y ** 2)`;
- `acos`, for `Math.acos`;
- `atan2`, for `Math.atan2`.

Properties that need facts about them say so as preconditions:

- `LengthSound`: the length is non-negative and is zero only for the zero
  vector;
- `AcosInRange`: the arc cosine maps [-1, 1] into [0, π].

**Where the code is followed rather than a cleaner design:**

- The knee angle is the mean of both sides, not the smaller one.
- There is no one-sided fallback: every required landmark must be visible.
- There is no fast-motion check.
- The thresholds are the code's constants: 100° and 150°, hip ratios 0.9 and
  0.7, a back-tilt limit of 20°, and a window of 30.
- Advice is only the two messages the code has.
- An invisible frame returns before the history is touched.

## Model

| member | source | states |
|---|---|---|
| Geometry.IsLandmarkVisible | src/app/components/DeepSquat.tsx:184-187 | a landmark is visible iff its visibility is at least 0.5 and both x and y lie in [0,1]; `src/DeepSquat.tsx` lines 158-161 define the same test |
| Geometry.ClampUnit | src/app/components/DeepSquat.tsx:223 | `min(max(c,-1),1)` always lies in [-1,1], leaves values already in range unchanged and pins values outside it to the nearer end |
| Geometry.ClampedCosine | src/app/components/DeepSquat.tsx:222-223 | under JavaScript division the clamped cosine is NaN exactly when both the dot product and the length product are 0; otherwise it lies in [-1,1] and equals the true quotient when that is in range |
| Geometry.CalculateAngle | src/app/components/DeepSquat.tsx:216-224 | the angle is NaN exactly when the clamped cosine of BA·BC over \|BA\|·\|BC\| is 0/0, and otherwise it is the arc cosine of that clamped cosine, in degrees, whose argument lies in [-1,1]; `src/DeepSquat.tsx` lines 186-194 define the same function |
| Geometry.AngleSymmetric | src/app/components/DeepSquat.tsx:216-224 | the angle at b is the same with the two outer points swapped |
| Geometry.AngleWithinHalfTurn | src/app/components/DeepSquat.tsx:216-224 | with a sound arc cosine, a defined angle lies in [0°,180°] |
| Geometry.AngleNaNIffDegenerate | src/app/components/DeepSquat.tsx:217-223 | with a sound vector length, the angle is NaN exactly when the middle landmark coincides with an outer one (the degenerate case is not trapped) |
| Geometry.LegsVisible | src/DeepSquat.tsx:174-183 | the leg guard holds iff every one of the six hip, knee and ankle landmarks (indices 23-28) is visible |
| Geometry.MeanKneeAngle | src/app/components/DeepSquat.tsx:226-228 | the knee angle used is defined iff both sides are, and is then exactly their mean (equidistant from both, hence between them), not the smaller side |
| Geometry.MeanKneeAngleInRange | src/app/components/DeepSquat.tsx:226-228 | with sound primitives the mean knee angle is NaN exactly when some leg has a coinciding hip/knee or ankle/knee pair, and otherwise lies in [0°,180°] |
| Geometry.BackTilt | src/app/components/DeepSquat.tsx:235-239 | the back tilt is never negative, and is 0 when the shoulder-to-hip line points straight down |
| Numeric.Midpoint | src/app/components/DeepSquat.tsx:228 | the left/right mean is NaN iff either side is, else lies between them at equal distance from both |
| Numeric.MidpointReal | src/app/components/DeepSquat.tsx:231-232 | the hip and knee heights lie between, and equidistant from, the left and right values |
| Numeric.MeanAtLeast | src/app/components/DeepSquat.tsx:268-271 | a window mean is at least any lower bound of all its entries |
| Numeric.MeanAtMost | src/app/components/DeepSquat.tsx:268-271 | a window mean is at most any upper bound of all its entries |
| Numeric.NumMeanNaN | src/app/components/DeepSquat.tsx:268 | the mean knee angle of a window is NaN exactly when some sample's angle is NaN |
| Numeric.NumMeanNotBelow | src/app/components/DeepSquat.tsx:268 | if no sample compares below a bound, neither does the mean |
| Numeric.NumMeanNotAbove | src/app/components/DeepSquat.tsx:268 | if no sample compares above a bound, neither does the mean |
| SlidingWindow.Push | src/app/components/DeepSquat.tsx:242-253 | the new sample is last; below capacity it is appended; at capacity exactly the oldest sample is evicted and the rest keep their order; the length never exceeds 30, and a full window stays full |
| SlidingWindow.Newest | src/app/components/DeepSquat.tsx:17-18 | a window of capacity n is the last min(len, n) elements of a stream, in order |
| SlidingWindow.PushKeepsNewest | src/app/components/DeepSquat.tsx:242-253 | pushing into the newest-30 window of a stream gives the newest-30 window of the extended stream (FIFO) |
| SlidingWindow.NewestExtends | src/app/components/DeepSquat.tsx:242-253 | a frame that pushes at most one sample keeps the window equal to the newest 30 of the extended stream |
| SquatDetector.FrameVisible | src/app/components/DeepSquat.tsx:200-213 | the windowed detector goes on iff every one of the eight shoulder, hip, knee and ankle landmarks (11, 12, 23-28) is visible |
| SquatDetector.MakeSample | src/app/components/DeepSquat.tsx:230-248 | a sample records hip and knee heights that are exactly the left/right means (in [0,1] for a visible frame), the back tilt computed from the shoulder and hip midpoints, and the frame's timestamp |
| SquatDetector.SampleKneeAngle | src/app/components/DeepSquat.tsx:226-228 | the knee angle a sample records is the mean of the left and right knee angles |
| SquatDetector.WindowAverages | src/app/components/DeepSquat.tsx:263-271 | the window's mean knee angle is NaN exactly when some sample's knee angle is NaN |
| SquatDetector.AveragesKeepBounds | src/app/components/DeepSquat.tsx:263-271 | the window means stay inside any bound every sample meets: heights in [0,1], tilt non-negative |
| Geometry.SquatPosture | src/app/components/DeepSquat.tsx:274 | the squat test both detectors apply (here to the window means, in `src/DeepSquat.tsx` line 205 to one frame's means) holds iff the knee angle is a number below 100° and the hip height exceeds 0.9 of the knee height; a NaN angle never qualifies |
| SquatDetector.SlidingSums | src/app/components/DeepSquat.tsx:249-252 | once the history holds 30 samples, pushing one changes the sum of hip heights, knee heights and tilts by the new sample's value minus the oldest one's; the knee-angle sum does the same when no angle is NaN. So each window mean is taken over exactly the newest 30 samples, each counted once |
| SquatDetector.SlidingMeans | src/app/components/DeepSquat.tsx:263-271 | on a full window the mean hip height, knee height and tilt each move by (entering − leaving) / 30 when a sample is pushed; a minimum or any other aggregate would not |
| Numeric.SumDropFirst | src/app/components/DeepSquat.tsx:268 | the left fold `reduce((sum, val) => sum + val, 0)` also peels from the front: dropping the first element subtracts exactly that element |
| SquatDetector.IsStanding | src/app/components/DeepSquat.tsx:274-275 | standing iff the mean knee angle is a number above 150° and the mean hip height is below 0.7 of the mean knee height (a NaN angle is never standing); it never holds together with squatting, which requires an angle below 100° |
| SquatDetector.Feedback | src/app/components/DeepSquat.tsx:278-286 | advice appears only when the mean knee angle is below 100°; "squat lower" iff additionally the hips are above 0.9 of the knee height; "keep your back straight" iff the angle is below 100°, the hips are not above 0.9 of the knee height and the tilt exceeds 20°; "squat lower" is never given for a squatting window |
| SquatDetector.Transition | src/app/components/DeepSquat.tsx:301-309 | standing→squatting iff squatting; squatting→returning iff standing; returning→standing iff standing; otherwise unchanged; at most one step along the cycle per frame |
| SquatDetector.Advance | src/app/components/DeepSquat.tsx:273-309 | a full history is judged by `Judge(d)`, defined as `Advance(d, WindowAverages(d.history))`, so `a` is the window means; then standing→squatting iff a is squatting, squatting→returning iff a is standing, returning→standing iff a is standing, otherwise the phase stays; the advice is the feedback for a; the count rises by exactly one iff the reward is played iff the state goes returning→standing; the history is untouched |
| SquatDetector.Step | src/app/components/DeepSquat.tsx:189-310 | an invisible frame changes nothing and raises the visibility toast; the history never shrinks and never exceeds 30; while it is shorter, state and count stay and the warm-up toast is raised; the count rises by at most one, only on returning→standing |
| SquatDetector.StepJudgesFullWindow | src/app/components/DeepSquat.tsx:242-309 | a visible frame whose pushed history holds 30 samples is judged (state machine, count and advice) on the means of exactly that history |
| SquatDetector.StepPushesSample | src/app/components/DeepSquat.tsx:226-253 | a visible frame appends exactly its own sample to the history, evicting the oldest when 30 are held |
| SquatDetector.Run | src/app/components/DeepSquat.tsx:119-126 | the per-frame loop: the run starts at the given detector and each next detector is one `Step` on the next frame |
| SquatDetector.RunHistory | src/app/components/DeepSquat.tsx:242-253 | after any number of frames the history is exactly the newest 30 samples of the visible frames, oldest first |
| SquatDetector.FromInitial | src/app/components/DeepSquat.tsx:17-58 | from the initial state (empty history, standing, count 0), after n frames the history is the newest 30 visible samples, at most n/3 repetitions are counted, and while fewer than 30 frames have been visible the detector is standing with count 0 |
| SquatDetector.CountNeverDecreases | src/app/components/DeepSquat.tsx:242-307 | along any run neither the repetition count nor the history length ever decreases |
| SquatDetector.RepsBoundedByFrames | src/app/components/DeepSquat.tsx:301-309 | each frame advances the cycle by at most one phase; from standing, n frames complete at most n/3 repetitions |
| SquatDetector.RepNeedsSquatThenReturn | src/app/components/DeepSquat.tsx:301-309 | between a standing point and a later higher count, the run passed through squatting and then returning, both at the old count |
| SquatDetector.InvisibleFramesChangeNothing | src/app/components/DeepSquat.tsx:201-213 | any number of frames with an invisible required landmark leave history, state and count unchanged |
| SquatDetector.ShallowWindowNotSquatting | src/app/components/DeepSquat.tsx:263-274 | a window with no knee angle below 100° is never squatting |
| SquatDetector.ShallowFramesCountNothing | src/app/components/DeepSquat.tsx:242-309 | starting standing with no sample in the window whose knee angle is below 100°, frames that never bring the knee angle below 100° keep the detector standing and never count; a window that is already deep can still start a squat on a shallow frame |
| SquatDetector.DeepWindowOutlastsShallowFrame | src/app/components/DeepSquat.tsx:263-302 | a standing detector whose window holds 29 samples at 90° and one at 160° (mean about 92°) starts a squat: a shallow frame alone does not keep the detector standing |
| SquatDetector.DegenerateSampleFreezes | src/app/components/DeepSquat.tsx:263-309 | a NaN knee angle anywhere in the window leaves state and count unchanged, plays no reward and gives no advice |
| SquatDetector.MeansOfRepeat | src/app/components/DeepSquat.tsx:263-271 | the means of a window of identical samples are that sample's values |
| SquatDetector.StraightLegsStayStanding | src/app/components/DeepSquat.tsx:274-309 | a window of straight legs (180°, hips at 0.3, knees at 0.5) keeps a standing detector standing at any count, silently |
| SquatDetector.DeepWindowStartsSquat | src/app/components/DeepSquat.tsx:274-302 | a full window at 90° with hips at 0.6 and knees at 0.5 moves standing to squatting |
| SquatDetector.RisingWindowCountsOnce | src/app/components/DeepSquat.tsx:275-309 | after a squat, a full window at 160° with hips at 0.3 and knees at 0.5 goes to returning, then to standing with the count raised from 0 to 1 exactly once |
| LegacySquatDetector.Measure | src/DeepSquat.tsx:196-202 | the reading's knee angle is the left/right mean; hip and knee heights are the left/right means (between and equidistant from both sides, in [0,1] when visible) |
| LegacySquatDetector.SquatNeedsABentKnee | src/DeepSquat.tsx:196-205 | a squatting reading needs both knee angles defined and at least one below 100° |
| LegacySquatDetector.Step | src/DeepSquat.tsx:164-218 | without all six leg landmarks visible nothing changes; standing→squatting iff squatting; squatting→standing iff not squatting; the count rises by one only on that edge, together with the reward; staying in either state keeps the count |
| LegacySquatDetector.DegenerateLegEndsSquat | src/DeepSquat.tsx:186-217 | a left hip coinciding with the left knee while squatting ends the squat and counts a repetition |
| LegacySquatDetector.CountNeverDecreases | src/DeepSquat.tsx:213-216 | along any run the count never decreases |
| LegacySquatDetector.RepsBoundedByFrames | src/DeepSquat.tsx:211-217 | from standing, n frames complete at most n/2 repetitions |
| LegacySquatDetector.FromInitial | src/DeepSquat.tsx:38-39 | from the initial state (standing, count 0), n frames complete at most n/2 repetitions |
| LegacySquatDetector.RepNeedsSquat | src/DeepSquat.tsx:211-217 | between a standing point and a later higher count the run was squatting at the old count |

## Left out

- Camera acquisition (`getCameraStream`, `enableCamHandler`): browser I/O and promises.
- Canvas drawing (`onResults` frame drawing, `drawLandmarks`) and `resizeCanvas`: rendering only.
- The reward sound and its unlock, and the JSX: audio and UI side effects. A played reward is the `rewarded` flag of an outcome.
- `throttleToast`: toasts are reported on every frame; rate limiting them to one per second is presentation.
- The `requestAnimationFrame` loop and `performance.now()`: the loop is `Run`, and the timestamp is a field of each frame. It is stored in the sample but never read.
- Only the first detected person is passed to `detectSquat`. A frame with no person never reaches it, so it is not a frame of the model.
- The pose estimator always delivers 33 landmarks. The model requires at least 29, the highest index read being 28.
- `Math.sqrt` of the sum of squares, `Math.acos` and `Math.atan2` are uninterpreted. Their real values and all floating-point rounding are not modelled.
- Signed zero is not modelled. A zero length product is taken as +0, which is what `Math.sqrt` returns, so a non-zero dot product over it is +∞ or −∞ with the sign of the dot product; the clamp then makes the cosine 1 or −1.
- A landmark whose `visibility` is missing would pass the `< 0.5` test in JavaScript. The model gives every landmark a numeric visibility, as the pose estimator does.
- The module-level `history` array is shared by every mounted component and survives remounts. The model gives each detector its own history.
- `setSquatCount` is an asynchronous React state update. The model applies the increment at once.
- `src/Predict.tsx`, `src/app/page.tsx`, `src/App.tsx` and `next.config.ts` are not part of this model. They hold a drawing-only demo, model loading, window resizing and build configuration.
- Geometry.BackTilt: says only that the tilt is non-negative and zero for a vertical back. Its value depends on the uninterpreted `atan2`.

=== FILE: geometry.dfy ===
/** Landmarks, the visibility filter and the joint-angle geometry shared by both
    generations of the squat detector (src/app/components/DeepSquat.tsx and
    src/DeepSquat.tsx define `isLandmarkVisible` and `calculateAngle`
    identically). */
module Geometry {
  import opened Numeric

  /** A normalised pose landmark as the pose estimator delivers it. */
  datatype Landmark = Landmark(x: real, y: real, z: real, visibility: real)

  /** The floating-point primitives the detector calls, left uninterpreted:
      `length(x, y)` is the vector length `Math.sqrt(x ** 2 + y ** 2)`, then
      `Math.acos`, and `Math.atan2` (whose arguments are y, then x). */
  datatype Trig = Trig(length: (real, real) -> real, acos: real -> real, atan2: (real, real) -> real)

  /** `Math.PI` as a double. */
  const Pi: real := 3.141592653589793

  /** The factor `180 / Math.PI` that turns radians into degrees. */
  const DegreesPerRadian: real := 180.0 / Pi

  /** A vector length that is non-negative and zero only for the zero vector. */
  ghost predicate LengthSound(t: Trig)
  {
    forall x, y :: 0.0 <= t.length(x, y) && (t.length(x, y) == 0.0 <==> x == 0.0 && y == 0.0)
  }

  /** An arc cosine that maps [-1, 1] into [0, pi]. */
  ghost predicate AcosInRange(t: Trig)
  {
    forall c :: -1.0 <= c <= 1.0 ==> 0.0 <= t.acos(c) <= Pi
  }

  // MediaPipe pose landmark indices read by the detectors.
  const LeftShoulder: nat := 11
  const RightShoulder: nat := 12
  const LeftHip: nat := 23
  const RightHip: nat := 24
  const LeftKnee: nat := 25
  const RightKnee: nat := 26
  const LeftAnkle: nat := 27
  const RightAnkle: nat := 28

  /** The landmark array is long enough for every index the detectors read
      (the pose estimator always delivers 33). */
  predicate CoversBody(lms: seq<Landmark>)
  {
    RightAnkle < |lms|
  }

  const VisibilityThreshold: real := 0.5

  /** A landmark is usable when its confidence reaches the threshold and it lies
      inside the frame. */
  function IsLandmarkVisible(l: Landmark): (visible: bool)
    ensures visible <==> VisibilityThreshold <= l.visibility && 0.0 <= l.x <= 1.0 && 0.0 <= l.y <= 1.0
  {
    if l.visibility < VisibilityThreshold then false
    else 0.0 <= l.x <= 1.0 && 0.0 <= l.y <= 1.0
  }

  /** `Math.min(Math.max(c, -1), 1)`. */
  function ClampUnit(c: real): (r: real)
    ensures -1.0 <= r <= 1.0
    ensures -1.0 <= c <= 1.0 ==> r == c
    ensures c < -1.0 ==> r == -1.0
    ensures 1.0 < c ==> r == 1.0
  {
    Min(Max(c, -1.0), 1.0)
  }

  /** The clamped cosine `clamp(dot / denom)` under JavaScript division: a
      non-zero numerator over zero is an infinity, which the clamp turns into
      1 or -1; zero over zero is NaN, which the clamp lets through. */
  function ClampedCosine(dot: real, denom: real): (cos: Num)
    ensures cos.Real? ==> -1.0 <= cos.v <= 1.0
    ensures cos.NaN? <==> dot == 0.0 && denom == 0.0
    ensures denom != 0.0 && -1.0 <= dot / denom <= 1.0 ==> cos == Real(dot / denom)
  {
    if denom != 0.0 then Real(ClampUnit(dot / denom))
    else if 0.0 < dot then Real(1.0)
    else if dot < 0.0 then Real(-1.0)
    else NaN
  }

  /** The dot product of the limb vectors BA and BC in the image plane. */
  function Dot(a: Landmark, b: Landmark, c: Landmark): real
  {
    (a.x - b.x) * (c.x - b.x) + (a.y - b.y) * (c.y - b.y)
  }

  /** The product of the lengths of BA and BC. */
  function LengthProduct(t: Trig, a: Landmark, b: Landmark, c: Landmark): real
  {
    t.length(a.x - b.x, a.y - b.y) * t.length(c.x - b.x, c.y - b.y)
  }

  /** The angle at `b` between the rays to `a` and to `c`, in degrees,
      computed from the image-plane coordinates only: the arc cosine of the
      clamped cosine of BA and BC, NaN exactly when that cosine is 0/0. */
  function CalculateAngle(t: Trig, a: Landmark, b: Landmark, c: Landmark): (angle: Num)
    ensures angle.NaN? <==> ClampedCosine(Dot(a, b, c), LengthProduct(t, a, b, c)).NaN?
    ensures angle.Real? ==> angle.v == t.acos(ClampedCosine(Dot(a, b, c), LengthProduct(t, a, b, c)).v) * DegreesPerRadian
    ensures angle.Real? ==> exists cos :: -1.0 <= cos <= 1.0 && angle.v == t.acos(cos) * DegreesPerRadian
  {
    match ClampedCosine(Dot(a, b, c), LengthProduct(t, a, b, c))
    case Real(cos) => Real(t.acos(cos) * DegreesPerRadian)
    case NaN => NaN
  }

  /** Two landmarks at the same image position: the limb vector between them
      has zero length. */
  predicate Coincide(p: Landmark, q: Landmark)
  {
    p.x == q.x && p.y == q.y
  }

  /** The angle does not depend on which outer point is named first. */
  lemma AngleSymmetric(t: Trig, a: Landmark, b: Landmark, c: Landmark)
    ensures CalculateAngle(t, a, b, c) == CalculateAngle(t, c, b, a)
  {
    assert Dot(a, b, c) == Dot(c, b, a);
    assert LengthProduct(t, a, b, c) == LengthProduct(t, c, b, a);
  }

  /** With a sound arc cosine, a defined angle lies between 0 and 180 degrees. */
  lemma AngleWithinHalfTurn(t: Trig, a: Landmark, b: Landmark, c: Landmark)
    requires AcosInRange(t)
    ensures CalculateAngle(t, a, b, c).Real? ==> 0.0 <= CalculateAngle(t, a, b, c).v <= 180.0
  {
    var cos := ClampedCosine(Dot(a, b, c), LengthProduct(t, a, b, c));
    if cos.Real? {
      var r := t.acos(cos.v);
      assert 0.0 <= r <= Pi;
      assert 0.0 <= r * DegreesPerRadian <= Pi * DegreesPerRadian;
      assert Pi * DegreesPerRadian == 180.0;
    }
  }

  /** With a sound vector length, the angle is NaN exactly when the middle
      point coincides with one of the outer points: the degenerate-geometry
      case, which the detector does not trap. */
  lemma AngleNaNIffDegenerate(t: Trig, a: Landmark, b: Landmark, c: Landmark)
    requires LengthSound(t)
    ensures CalculateAngle(t, a, b, c).NaN? <==> Coincide(a, b) || Coincide(c, b)
  {
    var mBA := t.length(a.x - b.x, a.y - b.y);
    var mBC := t.length(c.x - b.x, c.y - b.y);
    if Coincide(a, b) || Coincide(c, b) {
      assert LengthProduct(t, a, b, c) == 0.0;
      assert Dot(a, b, c) == 0.0;
    } else {
      assert 0.0 < mBA && 0.0 < mBC;
      assert 0.0 < mBA * mBC;
    }
  }

  /** The indices of the six hip, knee and ankle landmarks. */
  const LegLandmarks: set<nat> := {LeftHip, LeftKnee, LeftAnkle, RightHip, RightKnee, RightAnkle}

  /** All six hip, knee and ankle landmarks are visible. */
  function LegsVisible(lms: seq<Landmark>): (visible: bool)
    requires CoversBody(lms)
    ensures visible <==> forall i :: i in LegLandmarks ==> IsLandmarkVisible(lms[i])
  {
    && IsLandmarkVisible(lms[LeftHip])
    && IsLandmarkVisible(lms[LeftKnee])
    && IsLandmarkVisible(lms[LeftAnkle])
    && IsLandmarkVisible(lms[RightHip])
    && IsLandmarkVisible(lms[RightKnee])
    && IsLandmarkVisible(lms[RightAnkle])
  }

  /** The left knee angle, at the knee between hip and ankle. */
  function LeftKneeAngle(t: Trig, lms: seq<Landmark>): Num
    requires CoversBody(lms)
  {
    CalculateAngle(t, lms[LeftHip], lms[LeftKnee], lms[LeftAnkle])
  }

  /** The right knee angle, at the knee between hip and ankle. */
  function RightKneeAngle(t: Trig, lms: seq<Landmark>): Num
    requires CoversBody(lms)
  {
    CalculateAngle(t, lms[RightHip], lms[RightKnee], lms[RightAnkle])
  }

  /** The knee angle both detectors threshold: the mean of the two sides
      (not the smaller one), which is NaN when either side is. */
  function MeanKneeAngle(t: Trig, lms: seq<Landmark>): (angle: Num)
    requires CoversBody(lms)
    ensures angle.Real? <==> LeftKneeAngle(t, lms).Real? && RightKneeAngle(t, lms).Real?
    ensures angle.Real? ==> Min(LeftKneeAngle(t, lms).v, RightKneeAngle(t, lms).v) <= angle.v
                              <= Max(LeftKneeAngle(t, lms).v, RightKneeAngle(t, lms).v)
    ensures angle.Real? ==> angle.v - LeftKneeAngle(t, lms).v == RightKneeAngle(t, lms).v - angle.v
  {
    Midpoint(LeftKneeAngle(t, lms), RightKneeAngle(t, lms))
  }

  /** The squat thresholds both detectors share: a knee angle below 100
      degrees and hips lower in the image than 0.9 of the knee height. */
  const SquatKneeAngle: real := 100.0
  const SquatHipRatio: real := 0.9

  /** The squat posture: a defined knee angle below the threshold, and the
      hips below 0.9 of the knee height (image y grows downwards). A NaN angle
      never qualifies. */
  function SquatPosture(kneeAngle: Num, hipY: real, kneeY: real): (squatting: bool)
    ensures squatting <==> kneeAngle.Real? && kneeAngle.v < SquatKneeAngle && hipY > kneeY * SquatHipRatio
  {
    Below(kneeAngle, SquatKneeAngle) && hipY > kneeY * SquatHipRatio
  }

  /** With sound primitives, the mean knee angle is a defined angle between
      0 and 180 degrees unless a leg has a zero-length limb. */
  lemma MeanKneeAngleInRange(t: Trig, lms: seq<Landmark>)
    requires CoversBody(lms)
    requires LengthSound(t) && AcosInRange(t)
    ensures MeanKneeAngle(t, lms).NaN? <==>
              Coincide(lms[LeftHip], lms[LeftKnee]) || Coincide(lms[LeftAnkle], lms[LeftKnee]) ||
              Coincide(lms[RightHip], lms[RightKnee]) || Coincide(lms[RightAnkle], lms[RightKnee])
    ensures MeanKneeAngle(t, lms).Real? ==> 0.0 <= MeanKneeAngle(t, lms).v <= 180.0
  {
    AngleNaNIffDegenerate(t, lms[LeftHip], lms[LeftKnee], lms[LeftAnkle]);
    AngleNaNIffDegenerate(t, lms[RightHip], lms[RightKnee], lms[RightAnkle]);
    AngleWithinHalfTurn(t, lms[LeftHip], lms[LeftKnee], lms[LeftAnkle]);
    AngleWithinHalfTurn(t, lms[RightHip], lms[RightKnee], lms[RightAnkle]);
  }

  /** Deviation, in degrees, of the shoulder-midpoint to hip-midpoint line from
      the vertical: `|atan2(dy, dx) * 180 / PI - 90|`. */
  function BackTilt(t: Trig, leftShoulder: Landmark, rightShoulder: Landmark, leftHip: Landmark, rightHip: Landmark): (tilt: real)
    ensures 0.0 <= tilt
    ensures t.atan2(MidpointReal(leftHip.y, rightHip.y) - MidpointReal(leftShoulder.y, rightShoulder.y),
                    MidpointReal(leftHip.x, rightHip.x) - MidpointReal(leftShoulder.x, rightShoulder.x)) == Pi / 2.0
            ==> tilt == 0.0
  {
    var shoulderY := MidpointReal(leftShoulder.y, rightShoulder.y);
    var shoulderX := MidpointReal(leftShoulder.x, rightShoulder.x);
    var hipY := MidpointReal(leftHip.y, rightHip.y);
    var hipX := MidpointReal(leftHip.x, rightHip.x);
    var backAngle := t.atan2(hipY - shoulderY, hipX - shoulderX) * DegreesPerRadian;
    if backAngle >= 90.0 then backAngle - 90.0 else 90.0 - backAngle
  }
}

=== FILE: legacy_detector.dfy ===
/** The earlier, unwindowed squat detector of src/DeepSquat.tsx
    (`detectSquat`): each frame with all six leg landmarks visible is judged
    on its own, and a two-state machine counts a repetition whenever a squat
    ends. */
module LegacySquatDetector {
  import opened Numeric
  import opened Geometry
  import Progress

  /** `squatStateRef.current`. */
  datatype Phase = Standing | Squatting

  /** The state and the `squatCount` counter. */
  datatype Detector = Detector(phase: Phase, count: nat)

  const Initial: Detector := Detector(Standing, 0)

  /** The detector after a frame and whether the reward sound was played. */
  datatype Outcome = Outcome(detector: Detector, rewarded: bool)


  /** The per-frame left/right means the machine is driven by. */
  datatype Reading = Reading(kneeAngle: Num, hipY: real, kneeY: real)

  function Measure(t: Trig, lms: seq<Landmark>): (r: Reading)
    requires CoversBody(lms)
    ensures r.kneeAngle == MeanKneeAngle(t, lms)
    ensures Min(lms[LeftHip].y, lms[RightHip].y) <= r.hipY <= Max(lms[LeftHip].y, lms[RightHip].y)
    ensures r.hipY - lms[LeftHip].y == lms[RightHip].y - r.hipY
    ensures Min(lms[LeftKnee].y, lms[RightKnee].y) <= r.kneeY <= Max(lms[LeftKnee].y, lms[RightKnee].y)
    ensures r.kneeY - lms[LeftKnee].y == lms[RightKnee].y - r.kneeY
    ensures LegsVisible(lms) ==> 0.0 <= r.hipY <= 1.0 && 0.0 <= r.kneeY <= 1.0
  {
    Reading(
      MeanKneeAngle(t, lms),
      MidpointReal(lms[LeftHip].y, lms[RightHip].y),
      MidpointReal(lms[LeftKnee].y, lms[RightKnee].y))
  }

  /** A squatting frame: the squat posture on the frame's left/right means. */
  predicate IsSquatting(r: Reading)
  {
    SquatPosture(r.kneeAngle, r.hipY, r.kneeY)
  }

  /** Since the knee angle is the mean of both sides, a squat needs both knee
      angles defined and at least one of them below the threshold. */
  lemma SquatNeedsABentKnee(t: Trig, lms: seq<Landmark>)
    requires CoversBody(lms)
    ensures IsSquatting(Measure(t, lms)) ==>
              LeftKneeAngle(t, lms).Real? && RightKneeAngle(t, lms).Real? &&
              (Below(LeftKneeAngle(t, lms), SquatKneeAngle) || Below(RightKneeAngle(t, lms), SquatKneeAngle))
  {
  }

  function Rank(p: Phase): nat
  {
    match p
    case Standing => 0
    case Squatting => 1
  }

  /** Two ticks per completed squat plus the position inside the current one. */
  function Ticks(d: Detector): int
  {
    2 * d.count + Rank(d.phase)
  }

  /** `detectSquat` on one frame. */
  function Step(t: Trig, d: Detector, lms: seq<Landmark>): (o: Outcome)
    requires CoversBody(lms)
    ensures !LegsVisible(lms) ==> o == Outcome(d, false)
    ensures LegsVisible(lms) && d.phase == Standing ==>
              (o.detector.phase == Squatting <==> IsSquatting(Measure(t, lms)))
    ensures LegsVisible(lms) && d.phase == Squatting ==>
              (o.detector.phase == Standing <==> !IsSquatting(Measure(t, lms)))
    ensures o.detector.count == d.count + (if o.rewarded then 1 else 0)
    ensures o.rewarded <==> d.phase == Squatting && o.detector.phase == Standing
    ensures o.detector.phase == d.phase ==> o.detector.count == d.count
    ensures Ticks(o.detector) == Ticks(d) || Ticks(o.detector) == Ticks(d) + 1
  {
    if !LegsVisible(lms) then
      Outcome(d, false)
    else
      var squatting := IsSquatting(Measure(t, lms));
      if d.phase == Standing && squatting then
        Outcome(d.(phase := Squatting), false)
      else if d.phase == Squatting && !squatting then
        Outcome(Detector(Standing, d.count + 1), true)
      else
        Outcome(d, false)
  }

  /** A zero-length limb while squatting makes the knee angle NaN, which is
      not below the threshold, so the squat ends and a repetition is counted. */
  lemma DegenerateLegEndsSquat(t: Trig, lms: seq<Landmark>, d: Detector)
    requires CoversBody(lms) && LengthSound(t)
    requires LegsVisible(lms) && d.phase == Squatting
    requires Coincide(lms[LeftHip], lms[LeftKnee])
    ensures Step(t, d, lms) == Outcome(Detector(Standing, d.count + 1), true)
  {
    AngleNaNIffDegenerate(t, lms[LeftHip], lms[LeftKnee], lms[LeftAnkle]);
  }

  // ---------------------------------------------------------------------------
  // Runs over many frames

  ghost predicate WellFormed(frames: seq<seq<Landmark>>)
  {
    forall i :: 0 <= i < |frames| ==> CoversBody(frames[i])
  }

  /** `tr` lists the detector before each frame and after the last one. */
  ghost predicate IsRun(t: Trig, tr: seq<Detector>, frames: seq<seq<Landmark>>)
  {
    && WellFormed(frames)
    && |tr| == |frames| + 1
    && forall i :: 0 <= i < |frames| ==> tr[i + 1] == Step(t, tr[i], frames[i]).detector
  }

  lemma RunTicks(t: Trig, tr: seq<Detector>, frames: seq<seq<Landmark>>)
    requires IsRun(t, tr, frames)
    ensures Progress.UnitSteps(Progress.TickSeq(tr, Ticks))
  {
    var ts := Progress.TickSeq(tr, Ticks);
    forall i | 0 <= i < |ts| - 1
      ensures ts[i] <= ts[i + 1] <= ts[i] + 1
    {
      var o := Step(t, tr[i], frames[i]);
      assert tr[i + 1] == o.detector;
    }
  }

  /** The repetition count never goes down along a run. */
  lemma CountNeverDecreases(t: Trig, tr: seq<Detector>, frames: seq<seq<Landmark>>, i: nat, j: nat)
    requires IsRun(t, tr, frames)
    requires i <= j <= |frames|
    ensures tr[i].count <= tr[j].count
  {
    RunTicks(t, tr, frames);
    Progress.NeverFalls(Progress.TickSeq(tr, Ticks), i, j);
  }

  /** A repetition takes at least two frames: one to enter the squat and one
      to leave it. */
  lemma RepsBoundedByFrames(t: Trig, tr: seq<Detector>, frames: seq<seq<Landmark>>, i: nat, j: nat)
    requires IsRun(t, tr, frames)
    requires i <= j <= |frames|
    ensures tr[i].phase == Standing ==> 2 * (tr[j].count - tr[i].count) <= j - i
  {
    RunTicks(t, tr, frames);
    Progress.RisesAtMostBySteps(Progress.TickSeq(tr, Ticks), i, j);
  }

  /** A run from the initial detector completes at most one repetition per two
      frames. */
  lemma FromInitial(t: Trig, tr: seq<Detector>, frames: seq<seq<Landmark>>, n: nat)
    requires IsRun(t, tr, frames) && tr[0] == Initial
    requires n <= |frames|
    ensures 2 * tr[n].count <= n
  {
    RepsBoundedByFrames(t, tr, frames, 0, n);
  }

  /** Between a standing position and a later, higher count the detector was
      squatting at the old count. */
  lemma RepNeedsSquat(t: Trig, tr: seq<Detector>, frames: seq<seq<Landmark>>, a: nat, b: nat)
    requires IsRun(t, tr, frames)
    requires a <= b <= |frames|
    requires tr[a].phase == Standing && tr[a].count < tr[b].count
    ensures exists k :: a < k < b && tr[k].phase == Squatting && tr[k].count == tr[a].count
  {
    RunTicks(t, tr, frames);
    var ts := Progress.TickSeq(tr, Ticks);
    var c := tr[a].count;
    assert ts[a] == 2 * c;
    assert ts[b] >= 2 * c + 2;
    var k := Progress.HitsEveryValue(ts, a, b, 2 * c + 1);
    assert tr[k].count == c && tr[k].phase == Squatting;
  }
}

=== FILE: numeric.dfy ===
/** JavaScript numbers as the squat detector uses them, and the arithmetic means
    it takes over them.

    Every quantity the detector computes is a finite real, except a joint angle
    whose limb vector has zero length: there the cosine is 0/0 and the angle is
    NaN. NaN then propagates through every sum, and every comparison with it is
    false. `Num` keeps exactly those two cases (rounding is not modelled). */
module Numeric {

  datatype Num = Real(v: real) | NaN

  function Min(a: real, b: real): real { if a <= b then a else b }

  function Max(a: real, b: real): real { if a <= b then b else a }

  /** `n < c` in JavaScript: false whenever `n` is NaN. */
  predicate Below(n: Num, c: real) { n.Real? && n.v < c }

  /** `n > c` in JavaScript: false whenever `n` is NaN. */
  predicate Above(n: Num, c: real) { n.Real? && n.v > c }

  /** `a + b` in JavaScript. */
  function Plus(a: Num, b: Num): (r: Num)
    ensures r.NaN? <==> a.NaN? || b.NaN?
  {
    if a.Real? && b.Real? then Real(a.v + b.v) else NaN
  }

  /** `(a + b) / 2`: the mean of a left and a right measurement. */
  function Midpoint(a: Num, b: Num): (m: Num)
    ensures m.Real? <==> a.Real? && b.Real?
    ensures m.Real? ==> Min(a.v, b.v) <= m.v <= Max(a.v, b.v)
    ensures m.Real? ==> m.v - a.v == b.v - m.v
  {
    match Plus(a, b)
    case Real(s) => Real(s / 2.0)
    case NaN => NaN
  }

  /** `(a + b) / 2` on values that are never NaN (landmark coordinates). */
  function MidpointReal(a: real, b: real): (m: real)
    ensures Min(a, b) <= m <= Max(a, b)
    ensures m - a == b - m
  {
    (a + b) / 2.0
  }

  // ---------------------------------------------------------------------------
  // Sums and means over a window: a left fold from 0 divided by the length

  function Sum(s: seq<real>): real
  {
    if |s| == 0 then 0.0 else Sum(s[..|s| - 1]) + s[|s| - 1]
  }

  function Mean(s: seq<real>): real
    requires |s| > 0
  {
    Sum(s) / (|s| as real)
  }

  function NumSum(s: seq<Num>): Num
  {
    if |s| == 0 then Real(0.0) else Plus(NumSum(s[..|s| - 1]), s[|s| - 1])
  }

  function NumMean(s: seq<Num>): Num
    requires |s| > 0
  {
    match NumSum(s)
    case Real(t) => Real(t / (|s| as real))
    case NaN => NaN
  }

  /** Appending one element adds it to the sum. */
  lemma SumSnoc(s: seq<real>, x: real)
    ensures Sum(s + [x]) == Sum(s) + x
  {
    assert (s + [x])[..|s|] == s;
  }

  /** The left fold also peels from the front: dropping the first element
      subtracts exactly that element. */
  lemma {:induction false} SumDropFirst(s: seq<real>)
    requires |s| > 0
    ensures Sum(s[1..]) == Sum(s) - s[0]
  {
    if |s| > 1 {
      SumDropFirst(s[..|s| - 1]);
      assert s[1..][..|s[1..]| - 1] == s[..|s| - 1][1..];
    }
  }

  /** Sliding a window by one element changes its sum by the element that
      enters minus the element that leaves. */
  lemma SumSlides(s: seq<real>, x: real)
    requires |s| > 0
    ensures Sum(s[1..] + [x]) == Sum(s) - s[0] + x
  {
    SumSnoc(s[1..], x);
    SumDropFirst(s);
  }

  /** The same for a sum of numbers none of which is NaN. */
  lemma {:induction false} NumSumDropFirst(s: seq<Num>)
    requires |s| > 0
    requires forall i :: 0 <= i < |s| ==> s[i].Real?
    ensures NumSum(s).Real? && NumSum(s[1..]).Real?
    ensures NumSum(s[1..]).v == NumSum(s).v - s[0].v
  {
    if |s| == 1 {
      assert s[1..] == [];
      assert s[..0] == [];
    } else {
      var p := s[..|s| - 1];
      NumSumDropFirst(p);
      assert s[1..][..|s[1..]| - 1] == p[1..];
      assert s[1..][|s[1..]| - 1] == s[|s| - 1];
    }
  }

  lemma NumSumSlides(s: seq<Num>, x: Num)
    requires |s| > 0 && x.Real?
    requires forall i :: 0 <= i < |s| ==> s[i].Real?
    ensures NumSum(s).Real? && NumSum(s[1..] + [x]).Real?
    ensures NumSum(s[1..] + [x]).v == NumSum(s).v - s[0].v + x.v
  {
    NumSumDropFirst(s);
    assert (s[1..] + [x])[..|s| - 1] == s[1..];
  }

  lemma {:induction false} SumAtLeast(s: seq<real>, lo: real)
    requires forall i :: 0 <= i < |s| ==> lo <= s[i]
    ensures lo * (|s| as real) <= Sum(s)
  {
    if |s| > 0 {
      SumAtLeast(s[..|s| - 1], lo);
    }
  }

  lemma {:induction false} SumAtMost(s: seq<real>, hi: real)
    requires forall i :: 0 <= i < |s| ==> s[i] <= hi
    ensures Sum(s) <= hi * (|s| as real)
  {
    if |s| > 0 {
      SumAtMost(s[..|s| - 1], hi);
    }
  }

  lemma DivideAtLeast(x: real, n: real, lo: real)
    requires 0.0 < n && lo * n <= x
    ensures lo <= x / n
  {
    assert x / n * n == x;
  }

  lemma DivideAtMost(x: real, n: real, hi: real)
    requires 0.0 < n && x <= hi * n
    ensures x / n <= hi
  {
    assert x / n * n == x;
  }

  /** A mean never falls below a lower bound of every element. */
  lemma MeanAtLeast(s: seq<real>, lo: real)
    requires |s| > 0
    requires forall i :: 0 <= i < |s| ==> lo <= s[i]
    ensures lo <= Mean(s)
  {
    SumAtLeast(s, lo);
    DivideAtLeast(Sum(s), |s| as real, lo);
  }

  /** A mean never rises above an upper bound of every element. */
  lemma MeanAtMost(s: seq<real>, hi: real)
    requires |s| > 0
    requires forall i :: 0 <= i < |s| ==> s[i] <= hi
    ensures Mean(s) <= hi
  {
    SumAtMost(s, hi);
    DivideAtMost(Sum(s), |s| as real, hi);
  }

  /** One NaN anywhere in a window makes its sum NaN, and only then. */
  lemma {:induction false} NumSumNaN(s: seq<Num>)
    ensures NumSum(s).NaN? <==> exists i :: 0 <= i < |s| && s[i].NaN?
  {
    if |s| > 0 {
      var p := s[..|s| - 1];
      NumSumNaN(p);
      if exists i :: 0 <= i < |p| && p[i].NaN? {
        var i :| 0 <= i < |p| && p[i].NaN?;
        assert s[i] == p[i];
      }
      if exists i :: 0 <= i < |s| && s[i].NaN? {
        var i :| 0 <= i < |s| && s[i].NaN?;
        if i < |p| {
          assert p[i] == s[i];
        }
      }
    }
  }

  lemma {:induction false} NumSumNotBelow(s: seq<Num>, lo: real)
    requires forall i :: 0 <= i < |s| ==> !Below(s[i], lo)
    ensures !Below(NumSum(s), lo * (|s| as real))
  {
    if |s| > 0 {
      NumSumNotBelow(s[..|s| - 1], lo);
    }
  }

  lemma {:induction false} NumSumNotAbove(s: seq<Num>, hi: real)
    requires forall i :: 0 <= i < |s| ==> !Above(s[i], hi)
    ensures !Above(NumSum(s), hi * (|s| as real))
  {
    if |s| > 0 {
      NumSumNotAbove(s[..|s| - 1], hi);
    }
  }

  /** The mean of a window is NaN exactly when some element is. */
  lemma NumMeanNaN(s: seq<Num>)
    requires |s| > 0
    ensures NumMean(s).NaN? <==> exists i :: 0 <= i < |s| && s[i].NaN?
  {
    NumSumNaN(s);
  }

  /** If no element compares below `lo`, neither does the mean (NaN included). */
  lemma NumMeanNotBelow(s: seq<Num>, lo: real)
    requires |s| > 0
    requires forall i :: 0 <= i < |s| ==> !Below(s[i], lo)
    ensures !Below(NumMean(s), lo)
  {
    NumSumNotBelow(s, lo);
    if NumSum(s).Real? {
      DivideAtLeast(NumSum(s).v, |s| as real, lo);
    }
  }

  /** If no element compares above `hi`, neither does the mean (NaN included). */
  lemma NumMeanNotAbove(s: seq<Num>, hi: real)
    requires |s| > 0
    requires forall i :: 0 <= i < |s| ==> !Above(s[i], hi)
    ensures !Above(NumMean(s), hi)
  {
    NumSumNotAbove(s, hi);
    if NumSum(s).Real? {
      DivideAtMost(NumSum(s).v, |s| as real, hi);
    }
  }
}

=== FILE: progress.dfy ===
/** Facts about integer sequences that never fall and rise by at most one per
    step. Both detectors map a run to such a sequence (a rank that combines the
    repetition count with the position in the squat cycle), and these facts
    then say which states a run must pass through. */
module Progress {

  /** Every step keeps the value or raises it by exactly one. */
  ghost predicate UnitSteps(t: seq<int>)
  {
    forall i :: 0 <= i < |t| - 1 ==> t[i] <= t[i + 1] <= t[i] + 1
  }

  /** The progress measure `ticks` read off every state of a run. */
  function TickSeq<D>(tr: seq<D>, ticks: D -> int): (ts: seq<int>)
    ensures |ts| == |tr| && forall i :: 0 <= i < |tr| ==> ts[i] == ticks(tr[i])
  {
    seq(|tr|, i requires 0 <= i < |tr| => ticks(tr[i]))
  }

  lemma {:induction false} NeverFalls(t: seq<int>, i: nat, j: nat)
    requires UnitSteps(t)
    requires i <= j < |t|
    ensures t[i] <= t[j]
    decreases j - i
  {
    if i < j {
      NeverFalls(t, i + 1, j);
    }
  }

  lemma {:induction false} RisesAtMostBySteps(t: seq<int>, i: nat, j: nat)
    requires UnitSteps(t)
    requires i <= j < |t|
    ensures t[j] <= t[i] + (j - i)
    decreases j - i
  {
    if i < j {
      RisesAtMostBySteps(t, i + 1, j);
    }
  }

  /** A value between the start and the end of a stretch is hit exactly
      somewhere inside it: the sequence cannot jump over a value. */
  lemma {:induction false} HitsEveryValue(t: seq<int>, a: nat, b: nat, v: int) returns (k: nat)
    requires UnitSteps(t)
    requires a <= b < |t|
    requires t[a] <= v <= t[b]
    ensures a <= k <= b && t[k] == v
    decreases b - a
  {
    if t[a] == v {
      k := a;
    } else {
      k := HitsEveryValue(t, a + 1, b, v);
    }
  }
}

=== FILE: squat_detector.dfy ===
/** The windowed squat detector of src/app/components/DeepSquat.tsx
    (`detectSquat`): per frame it checks eight landmarks, derives one sample,
    pushes it into a 30-frame history, and once the history is full drives a
    three-state hysteresis machine (standing, squatting, returning) and a
    two-message feedback classifier from the window means.

    The module-level `history` array, the `squatStateRef` state and the
    `squatCount` counter are the fields of a `Detector` value; the toasts and
    the reward sound are reported in the `Outcome` of each step. */
module SquatDetector {
  import opened Numeric
  import opened Geometry
  import opened SlidingWindow
  import Progress

  /** One processed frame (`HistoryItemType`). */
  datatype Sample = Sample(kneeAngle: Num, hipY: real, kneeY: real, backTilt: real, timestamp: real)

  /** `squatStateRef.current`. */
  datatype Phase = Standing | Squatting | Returning

  /** Everything the detector keeps between frames. */
  datatype Detector = Detector(history: seq<Sample>, phase: Phase, count: nat)

  /** The state before the first frame. */
  const Initial: Detector := Detector([], Standing, 0)

  /** The landmarks of the first detected person, and `performance.now()`. */
  datatype Frame = Frame(landmarks: seq<Landmark>, now: real)

  /** The toast a frame raises, if any. */
  datatype Toast =
    | NoToast
    | BodyNotVisible    // "make sure your body is visible to the camera"
    | FillingWindow     // "filling data, please wait"
    | SquatLower        // "please squat lower"
    | KeepBackStraight  // "please keep your back straight"

  /** The detector after a frame, the toast it raised, and whether the reward
      sound was played. */
  datatype Outcome = Outcome(detector: Detector, toast: Toast, rewarded: bool)

  const StandKneeAngle: real := 150.0
  const StandHipRatio: real := 0.7
  const BackTiltLimit: real := 20.0

  // ---------------------------------------------------------------------------
  // One frame

  /** The indices of the eight landmarks the windowed detector insists on. */
  const BodyLandmarks: set<nat> := LegLandmarks + {LeftShoulder, RightShoulder}

  /** Both shoulders and the six hip, knee and ankle landmarks are visible. */
  function FrameVisible(lms: seq<Landmark>): (visible: bool)
    requires CoversBody(lms)
    ensures visible <==> forall i :: i in BodyLandmarks ==> IsLandmarkVisible(lms[i])
  {
    && IsLandmarkVisible(lms[LeftShoulder])
    && IsLandmarkVisible(lms[RightShoulder])
    && LegsVisible(lms)
  }

  /** The sample a visible frame contributes to the history. */
  function MakeSample(t: Trig, lms: seq<Landmark>, now: real): (s: Sample)
    requires CoversBody(lms)
    ensures s.hipY - lms[LeftHip].y == lms[RightHip].y - s.hipY
    ensures s.kneeY - lms[LeftKnee].y == lms[RightKnee].y - s.kneeY
    ensures FrameVisible(lms) ==> 0.0 <= s.hipY <= 1.0 && 0.0 <= s.kneeY <= 1.0
    ensures s.backTilt == BackTilt(t, lms[LeftShoulder], lms[RightShoulder], lms[LeftHip], lms[RightHip])
    ensures s.timestamp == now
  {
    Sample(
      MeanKneeAngle(t, lms),
      MidpointReal(lms[LeftHip].y, lms[RightHip].y),
      MidpointReal(lms[LeftKnee].y, lms[RightKnee].y),
      BackTilt(t, lms[LeftShoulder], lms[RightShoulder], lms[LeftHip], lms[RightHip]),
      now)
  }

  /** The knee angle a sample records is the mean of the two knee angles. */
  lemma SampleKneeAngle(t: Trig, lms: seq<Landmark>, now: real)
    requires CoversBody(lms)
    ensures MakeSample(t, lms, now).kneeAngle == MeanKneeAngle(t, lms)
  {
  }

  // ---------------------------------------------------------------------------
  // Window means

  datatype Averages = Averages(kneeAngle: Num, hipY: real, kneeY: real, backTilt: real)

  function KneeAngles(h: seq<Sample>): (r: seq<Num>)
    ensures |r| == |h| && forall i :: 0 <= i < |h| ==> r[i] == h[i].kneeAngle
  {
    seq(|h|, i requires 0 <= i < |h| => h[i].kneeAngle)
  }

  function HipYs(h: seq<Sample>): (r: seq<real>)
    ensures |r| == |h| && forall i :: 0 <= i < |h| ==> r[i] == h[i].hipY
  {
    seq(|h|, i requires 0 <= i < |h| => h[i].hipY)
  }

  function KneeYs(h: seq<Sample>): (r: seq<real>)
    ensures |r| == |h| && forall i :: 0 <= i < |h| ==> r[i] == h[i].kneeY
  {
    seq(|h|, i requires 0 <= i < |h| => h[i].kneeY)
  }

  function BackTilts(h: seq<Sample>): (r: seq<real>)
    ensures |r| == |h| && forall i :: 0 <= i < |h| ==> r[i] == h[i].backTilt
  {
    seq(|h|, i requires 0 <= i < |h| => h[i].backTilt)
  }

  /** The arithmetic mean of each field over the whole history; the knee
      angle is NaN as soon as one sample's is. */
  function WindowAverages(h: seq<Sample>): (a: Averages)
    requires |h| > 0
    ensures a.kneeAngle.NaN? <==> exists i :: 0 <= i < |h| && h[i].kneeAngle.NaN?
  {
    NumMeanNaN(KneeAngles(h));
    Averages(NumMean(KneeAngles(h)), Mean(HipYs(h)), Mean(KneeYs(h)), Mean(BackTilts(h)))
  }

  /** The window means keep every bound all samples meet: heights inside the
      frame and non-negative tilts. */
  lemma AveragesKeepBounds(h: seq<Sample>)
    requires |h| > 0
    ensures (forall i :: 0 <= i < |h| ==> 0.0 <= h[i].hipY <= 1.0) ==> 0.0 <= WindowAverages(h).hipY <= 1.0
    ensures (forall i :: 0 <= i < |h| ==> 0.0 <= h[i].kneeY <= 1.0) ==> 0.0 <= WindowAverages(h).kneeY <= 1.0
    ensures (forall i :: 0 <= i < |h| ==> 0.0 <= h[i].backTilt) ==> 0.0 <= WindowAverages(h).backTilt
  {
    if forall i :: 0 <= i < |h| ==> 0.0 <= h[i].hipY <= 1.0 {
      MeanAtLeast(HipYs(h), 0.0);
      MeanAtMost(HipYs(h), 1.0);
    }
    if forall i :: 0 <= i < |h| ==> 0.0 <= h[i].kneeY <= 1.0 {
      MeanAtLeast(KneeYs(h), 0.0);
      MeanAtMost(KneeYs(h), 1.0);
    }
    if forall i :: 0 <= i < |h| ==> 0.0 <= h[i].backTilt {
      MeanAtLeast(BackTilts(h), 0.0);
    }
  }

  /** Once the window is full, a new sample changes each running sum by the
      sample that enters minus the oldest one, which leaves: the means are
      taken over exactly the newest thirty samples, each counted once. */
  lemma SlidingSums(h: seq<Sample>, s: Sample)
    requires |h| == WindowSize
    ensures Sum(HipYs(Push(h, s))) == Sum(HipYs(h)) - h[0].hipY + s.hipY
    ensures Sum(KneeYs(Push(h, s))) == Sum(KneeYs(h)) - h[0].kneeY + s.kneeY
    ensures Sum(BackTilts(Push(h, s))) == Sum(BackTilts(h)) - h[0].backTilt + s.backTilt
    ensures (forall i :: 0 <= i < |h| ==> h[i].kneeAngle.Real?) && s.kneeAngle.Real? ==>
              NumSum(KneeAngles(h)).Real? && NumSum(KneeAngles(Push(h, s))).Real? &&
              NumSum(KneeAngles(Push(h, s))).v == NumSum(KneeAngles(h)).v - h[0].kneeAngle.v + s.kneeAngle.v
  {
    var r := Push(h, s);
    assert r == h[1..] + [s];
    assert HipYs(r) == HipYs(h)[1..] + [s.hipY];
    SumSlides(HipYs(h), s.hipY);
    assert KneeYs(r) == KneeYs(h)[1..] + [s.kneeY];
    SumSlides(KneeYs(h), s.kneeY);
    assert BackTilts(r) == BackTilts(h)[1..] + [s.backTilt];
    SumSlides(BackTilts(h), s.backTilt);
    if (forall i :: 0 <= i < |h| ==> h[i].kneeAngle.Real?) && s.kneeAngle.Real? {
      assert KneeAngles(r) == KneeAngles(h)[1..] + [s.kneeAngle];
      NumSumSlides(KneeAngles(h), s.kneeAngle);
    }
  }

  /** The same for the means: a full window's mean moves by a thirtieth of
      the difference between the entering and the leaving sample. */
  lemma SlidingMeans(h: seq<Sample>, s: Sample)
    requires |h| == WindowSize
    ensures WindowAverages(Push(h, s)).hipY == WindowAverages(h).hipY + (s.hipY - h[0].hipY) / (WindowSize as real)
    ensures WindowAverages(Push(h, s)).kneeY == WindowAverages(h).kneeY + (s.kneeY - h[0].kneeY) / (WindowSize as real)
    ensures WindowAverages(Push(h, s)).backTilt ==
              WindowAverages(h).backTilt + (s.backTilt - h[0].backTilt) / (WindowSize as real)
  {
    SlidingSums(h, s);
  }

  // ---------------------------------------------------------------------------
  // Classification

  /** A squatting window: the squat posture on the window means. */
  predicate IsSquatting(a: Averages)
  {
    SquatPosture(a.kneeAngle, a.hipY, a.kneeY)
  }

  /** Standing needs a knee angle above 150 degrees and squatting one below
      100, so no window is both. */
  function IsStanding(a: Averages): (standing: bool)
    ensures standing <==> a.kneeAngle.Real? && a.kneeAngle.v > StandKneeAngle && a.hipY < a.kneeY * StandHipRatio
    ensures standing ==> !IsSquatting(a)
  {
    Above(a.kneeAngle, StandKneeAngle) && a.hipY < a.kneeY * StandHipRatio
  }

  /** The posture advice for a full window: only while the knees are bent
      below the squat angle, and "squat lower" before "keep your back
      straight". */
  function Feedback(a: Averages): (toast: Toast)
    ensures toast == NoToast || toast == SquatLower || toast == KeepBackStraight
    ensures toast != NoToast ==> Below(a.kneeAngle, SquatKneeAngle)
    ensures toast == SquatLower <==> Below(a.kneeAngle, SquatKneeAngle) && a.hipY < a.kneeY * SquatHipRatio
    ensures toast == KeepBackStraight <==>
              Below(a.kneeAngle, SquatKneeAngle) && !(a.hipY < a.kneeY * SquatHipRatio) && a.backTilt > BackTiltLimit
    ensures toast == SquatLower ==> !IsSquatting(a)
  {
    if Below(a.kneeAngle, SquatKneeAngle) then
      if a.hipY < a.kneeY * SquatHipRatio then SquatLower
      else if a.backTilt > BackTiltLimit then KeepBackStraight
      else NoToast
    else NoToast
  }

  // ---------------------------------------------------------------------------
  // The repetition state machine

  /** The next phase around the cycle standing, squatting, returning. */
  function Succ(p: Phase): Phase
  {
    match p
    case Standing => Squatting
    case Squatting => Returning
    case Returning => Standing
  }

  function Rank(p: Phase): nat
  {
    match p
    case Standing => 0
    case Squatting => 1
    case Returning => 2
  }

  /** Progress through all repetitions: three ticks per completed squat plus
      the position inside the current one. */
  function Ticks(d: Detector): int
  {
    3 * d.count + Rank(d.phase)
  }

  function Transition(p: Phase, squatting: bool, standing: bool): (next: Phase)
    ensures next == p || next == Succ(p)
    ensures p == Standing ==> (next == Squatting <==> squatting)
    ensures p == Squatting ==> (next == Returning <==> standing)
    ensures p == Returning ==> (next == Standing <==> standing)
  {
    if p == Standing && squatting then Squatting
    else if p == Squatting && standing then Returning
    else if p == Returning && standing then Standing
    else p
  }

  /** The state machine, counting and advice driven by the means `a` of a
      full window: one step around the cycle at most, taken exactly when the
      window classifies as the next position, and a repetition counted on the
      step from returning to standing. */
  function Advance(d: Detector, a: Averages): (o: Outcome)
    ensures o.detector.history == d.history
    ensures o.detector.phase == d.phase || o.detector.phase == Succ(d.phase)
    ensures d.phase == Standing ==> (o.detector.phase == Squatting <==> IsSquatting(a))
    ensures d.phase == Squatting ==> (o.detector.phase == Returning <==> IsStanding(a))
    ensures d.phase == Returning ==> (o.detector.phase == Standing <==> IsStanding(a))
    ensures o.toast == Feedback(a)
    ensures o.detector.count == d.count + (if o.rewarded then 1 else 0)
    ensures o.rewarded <==> d.phase == Returning && o.detector.phase == Standing
    ensures Ticks(o.detector) == Ticks(d) || Ticks(o.detector) == Ticks(d) + 1
  {
    var next := Transition(d.phase, IsSquatting(a), IsStanding(a));
    var rewarded := d.phase == Returning && next == Standing;
    Outcome(Detector(d.history, next, if rewarded then d.count + 1 else d.count), Feedback(a), rewarded)
  }

  /** A full window is judged on the means of the whole history. */
  function Judge(d: Detector): Outcome
    requires |d.history| > 0
  {
    Advance(d, WindowAverages(d.history))
  }

  /** `detectSquat` on one frame. */
  function Step(t: Trig, d: Detector, frame: Frame): (o: Outcome)
    requires CoversBody(frame.landmarks)
    ensures !FrameVisible(frame.landmarks) ==> o == Outcome(d, BodyNotVisible, false)
    ensures |d.history| <= |o.detector.history|
    ensures |d.history| <= WindowSize ==> |o.detector.history| <= WindowSize
    ensures |d.history| == WindowSize ==> |o.detector.history| == WindowSize
    ensures |o.detector.history| < WindowSize ==>
              o.detector.phase == d.phase && o.detector.count == d.count && !o.rewarded
    ensures FrameVisible(frame.landmarks) && |o.detector.history| < WindowSize ==> o.toast == FillingWindow
    ensures o.detector.count == d.count + (if o.rewarded then 1 else 0)
    ensures o.rewarded <==> d.phase == Returning && o.detector.phase == Standing
    ensures Ticks(o.detector) == Ticks(d) || Ticks(o.detector) == Ticks(d) + 1
  {
    if !FrameVisible(frame.landmarks) then
      Outcome(d, BodyNotVisible, false)
    else
      var h := Push(d.history, MakeSample(t, frame.landmarks, frame.now));
      if |h| < WindowSize then
        Outcome(d.(history := h), FillingWindow, false)
      else
        Judge(d.(history := h))
  }

  /** A visible frame that fills the window is judged on the window it
      leaves behind. */
  lemma StepJudgesFullWindow(t: Trig, d: Detector, frame: Frame)
    requires CoversBody(frame.landmarks) && FrameVisible(frame.landmarks)
    requires |Push(d.history, MakeSample(t, frame.landmarks, frame.now))| == WindowSize
    ensures Step(t, d, frame) ==
              Judge(d.(history := Push(d.history, MakeSample(t, frame.landmarks, frame.now))))
  {
  }

  /** A visible frame contributes exactly its own sample to the history; an
      invisible one contributes nothing. */
  lemma StepPushesSample(t: Trig, d: Detector, frame: Frame)
    requires CoversBody(frame.landmarks)
    ensures Step(t, d, frame).detector.history ==
              if FrameVisible(frame.landmarks) then Push(d.history, MakeSample(t, frame.landmarks, frame.now))
              else d.history
  {
  }

  // ---------------------------------------------------------------------------
  // Runs over many frames

  ghost predicate WellFormed(frames: seq<Frame>)
  {
    forall i :: 0 <= i < |frames| ==> CoversBody(frames[i].landmarks)
  }

  /** `tr` lists the detector before each frame and after the last one. */
  ghost predicate IsRun(t: Trig, tr: seq<Detector>, frames: seq<Frame>)
  {
    && WellFormed(frames)
    && |tr| == |frames| + 1
    && forall i :: 0 <= i < |frames| ==> tr[i + 1] == Step(t, tr[i], frames[i]).detector
  }

  /** The run from `d` over `frames`. */
  function Run(t: Trig, d: Detector, frames: seq<Frame>): (tr: seq<Detector>)
    requires WellFormed(frames)
    ensures |tr| == |frames| + 1 && tr[0] == d
    ensures IsRun(t, tr, frames)
  {
    if |frames| == 0 then [d]
    else
      var init := frames[..|frames| - 1];
      assert WellFormed(init) by {
        forall i | 0 <= i < |init| ensures CoversBody(init[i].landmarks) {
          assert init[i] == frames[i];
        }
      }
      var prefix := Run(t, d, init);
      var tr := prefix + [Step(t, prefix[|prefix| - 1], frames[|frames| - 1]).detector];
      assert IsRun(t, tr, frames) by {
        forall i | 0 <= i < |frames|
          ensures tr[i + 1] == Step(t, tr[i], frames[i]).detector
        {
          if i < |init| {
            assert tr[i] == prefix[i] && tr[i + 1] == prefix[i + 1] && init[i] == frames[i];
          }
        }
      }
      tr
  }

  /** The samples the visible frames contribute, in order. */
  function VisibleSamples(t: Trig, frames: seq<Frame>): seq<Sample>
    requires WellFormed(frames)
  {
    if |frames| == 0 then []
    else
      var last := frames[|frames| - 1];
      VisibleSamples(t, frames[..|frames| - 1]) +
      (if FrameVisible(last.landmarks) then [MakeSample(t, last.landmarks, last.now)] else [])
  }

  lemma RunTicks(t: Trig, tr: seq<Detector>, frames: seq<Frame>)
    requires IsRun(t, tr, frames)
    ensures Progress.UnitSteps(Progress.TickSeq(tr, Ticks))
  {
    var ts := Progress.TickSeq(tr, Ticks);
    forall i | 0 <= i < |ts| - 1
      ensures ts[i] <= ts[i + 1] <= ts[i] + 1
    {
      var o := Step(t, tr[i], frames[i]);
      assert tr[i + 1] == o.detector;
    }
  }

  /** Neither the repetition count nor the history length ever goes down
      along a run. */
  lemma CountNeverDecreases(t: Trig, tr: seq<Detector>, frames: seq<Frame>, i: nat, j: nat)
    requires IsRun(t, tr, frames)
    requires i <= j <= |frames|
    ensures tr[i].count <= tr[j].count
    ensures |tr[i].history| <= |tr[j].history|
  {
    RunTicks(t, tr, frames);
    Progress.NeverFalls(Progress.TickSeq(tr, Ticks), i, j);
    var k := i;
    while k < j
      invariant i <= k <= j
      invariant |tr[i].history| <= |tr[k].history|
    {
      assert tr[k + 1] == Step(t, tr[k], frames[k]).detector;
      k := k + 1;
    }
  }

  /** Each frame advances the cycle by at most one phase, so `n` frames that
      start standing complete at most `n / 3` repetitions. */
  lemma RepsBoundedByFrames(t: Trig, tr: seq<Detector>, frames: seq<Frame>, i: nat, j: nat)
    requires IsRun(t, tr, frames)
    requires i <= j <= |frames|
    ensures Ticks(tr[j]) <= Ticks(tr[i]) + (j - i)
    ensures tr[i].phase == Standing ==> 3 * (tr[j].count - tr[i].count) <= j - i
  {
    RunTicks(t, tr, frames);
    Progress.RisesAtMostBySteps(Progress.TickSeq(tr, Ticks), i, j);
  }

  /** Between a standing position and a later, higher count, the detector was
      squatting and then returning, both still at the old count: no repetition
      is counted without the full cycle. */
  lemma RepNeedsSquatThenReturn(t: Trig, tr: seq<Detector>, frames: seq<Frame>, a: nat, b: nat)
    requires IsRun(t, tr, frames)
    requires a <= b <= |frames|
    requires tr[a].phase == Standing && tr[a].count < tr[b].count
    ensures exists k1, k2 :: a < k1 < k2 < b
              && tr[k1].phase == Squatting && tr[k1].count == tr[a].count
              && tr[k2].phase == Returning && tr[k2].count == tr[a].count
  {
    RunTicks(t, tr, frames);
    var ts := Progress.TickSeq(tr, Ticks);
    var c := tr[a].count;
    assert ts[a] == 3 * c;
    assert ts[b] >= 3 * c + 3;
    var k1 := Progress.HitsEveryValue(ts, a, b, 3 * c + 1);
    var k2 := Progress.HitsEveryValue(ts, k1, b, 3 * c + 2);
    assert tr[k1].count == c && tr[k1].phase == Squatting;
    assert tr[k2].count == c && tr[k2].phase == Returning;
  }

  /** Frames in which some required landmark is invisible leave the detector
      exactly as it was, however many of them there are. */
  lemma InvisibleFramesChangeNothing(t: Trig, tr: seq<Detector>, frames: seq<Frame>)
    requires IsRun(t, tr, frames)
    requires forall i :: 0 <= i < |frames| ==> !FrameVisible(frames[i].landmarks)
    ensures forall i :: 0 <= i <= |frames| ==> tr[i] == tr[0]
  {
    var n := 0;
    while n < |frames|
      invariant n <= |frames|
      invariant forall i :: 0 <= i <= n ==> tr[i] == tr[0]
    {
      assert tr[n + 1] == Step(t, tr[n], frames[n]).detector;
      n := n + 1;
    }
  }

  /** The history after any prefix of a run holds the newest samples of the
      visible frames, at most `WindowSize` of them, oldest first. */
  lemma {:induction false} RunHistory(t: Trig, tr: seq<Detector>, frames: seq<Frame>, n: nat)
    requires IsRun(t, tr, frames)
    requires |tr[0].history| <= WindowSize
    requires n <= |frames|
    ensures tr[n].history == Newest(tr[0].history + VisibleSamples(t, frames[..n]), WindowSize)
  {
    if n == 0 {
      assert tr[0].history + VisibleSamples(t, frames[..0]) == tr[0].history;
    } else {
      RunHistory(t, tr, frames, n - 1);
      var f := frames[n - 1];
      var before := tr[0].history + VisibleSamples(t, frames[..n - 1]);
      var extra := if FrameVisible(f.landmarks) then [MakeSample(t, f.landmarks, f.now)] else [];
      assert tr[n] == Step(t, tr[n - 1], f).detector;
      StepPushesSample(t, tr[n - 1], f);
      VisibleSamplesSnoc(t, frames, n, tr[0].history);
      NewestExtends(before, extra, tr[n].history);
    }
  }

  /** A run from the initial detector: the history is the newest samples of
      the visible frames, at most one repetition is counted per three frames,
      and until thirty frames have been visible the detector stays standing
      with nothing counted. */
  lemma FromInitial(t: Trig, tr: seq<Detector>, frames: seq<Frame>, n: nat)
    requires IsRun(t, tr, frames) && tr[0] == Initial
    requires n <= |frames|
    ensures tr[n].history == Newest(VisibleSamples(t, frames[..n]), WindowSize)
    ensures 3 * tr[n].count <= n
    ensures |VisibleSamples(t, frames[..n])| < WindowSize ==> tr[n].phase == Standing && tr[n].count == 0
  {
    RunHistory(t, tr, frames, n);
    assert tr[0].history + VisibleSamples(t, frames[..n]) == VisibleSamples(t, frames[..n]);
    RepsBoundedByFrames(t, tr, frames, 0, n);
    if |VisibleSamples(t, frames[..n])| < WindowSize {
      var k := 0;
      while k < n
        invariant k <= n
        invariant tr[k].phase == Standing && tr[k].count == 0
      {
        CountNeverDecreases(t, tr, frames, k + 1, n);
        assert tr[k + 1] == Step(t, tr[k], frames[k]).detector;
        k := k + 1;
      }
    }
  }

  /** One more frame adds its own sample, if visible, after whatever the
      history held before the run. */
  lemma VisibleSamplesSnoc(t: Trig, frames: seq<Frame>, n: nat, start: seq<Sample>)
    requires WellFormed(frames) && 0 < n <= |frames|
    ensures start + VisibleSamples(t, frames[..n]) ==
              (start + VisibleSamples(t, frames[..n - 1])) +
              (if FrameVisible(frames[n - 1].landmarks)
               then [MakeSample(t, frames[n - 1].landmarks, frames[n - 1].now)] else [])
  {
    assert frames[..n][..n - 1] == frames[..n - 1];
  }

  // ---------------------------------------------------------------------------
  // Consequences of the window means

  /** No sample in the history has a knee angle below the squat threshold
      (NaN angles included). */
  ghost predicate NoDeepSample(h: seq<Sample>)
  {
    forall s :: s in h ==> !Below(s.kneeAngle, SquatKneeAngle)
  }

  /** A window without a deep sample never counts as squatting. */
  lemma ShallowWindowNotSquatting(h: seq<Sample>)
    requires |h| > 0 && NoDeepSample(h)
    ensures !IsSquatting(WindowAverages(h))
  {
    var ks := KneeAngles(h);
    forall i | 0 <= i < |ks|
      ensures !Below(ks[i], SquatKneeAngle)
    {
      assert h[i] in h;
    }
    NumMeanNotBelow(ks, SquatKneeAngle);
  }

  /** A frame that is either dropped or contributes no deep sample. */
  ghost predicate ShallowFrame(t: Trig, f: Frame)
  {
    CoversBody(f.landmarks) &&
    (FrameVisible(f.landmarks) ==> !Below(MakeSample(t, f.landmarks, f.now).kneeAngle, SquatKneeAngle))
  }

  /** Starting from standing with no deep sample in the window, frames whose
      knee angle never drops below the squat threshold never count a
      repetition: the detector stays standing throughout. */
  lemma ShallowFramesCountNothing(t: Trig, tr: seq<Detector>, frames: seq<Frame>)
    requires IsRun(t, tr, frames)
    requires tr[0].phase == Standing && NoDeepSample(tr[0].history)
    requires forall i :: 0 <= i < |frames| ==> ShallowFrame(t, frames[i])
    ensures forall i :: 0 <= i <= |frames| ==> tr[i].phase == Standing && tr[i].count == tr[0].count
  {
    var n := 0;
    while n < |frames|
      invariant n <= |frames|
      invariant NoDeepSample(tr[n].history)
      invariant forall i :: 0 <= i <= n ==> tr[i].phase == Standing && tr[i].count == tr[0].count
    {
      var f := frames[n];
      assert ShallowFrame(t, f);
      assert tr[n + 1] == Step(t, tr[n], f).detector;
      if FrameVisible(f.landmarks) {
        var h := Push(tr[n].history, MakeSample(t, f.landmarks, f.now));
        assert NoDeepSample(h);
        if |h| >= WindowSize {
          ShallowWindowNotSquatting(h);
        }
      }
      n := n + 1;
    }
  }

  /** A NaN knee angle anywhere in a full window (a zero-length limb in one of
      the last 30 visible frames) freezes the machine and silences the
      feedback until it is shifted out. */
  lemma DegenerateSampleFreezes(d: Detector)
    requires |d.history| > 0
    requires exists i :: 0 <= i < |d.history| && d.history[i].kneeAngle.NaN?
    ensures Judge(d) == Outcome(d, NoToast, false)
  {
    var ks := KneeAngles(d.history);
    var i :| 0 <= i < |d.history| && d.history[i].kneeAngle.NaN?;
    assert ks[i].NaN?;
    NumMeanNaN(ks);
  }

  // ---------------------------------------------------------------------------
  // Scenarios

  function Repeat(s: Sample, n: nat): (h: seq<Sample>)
    ensures |h| == n && forall i :: 0 <= i < n ==> h[i] == s
  {
    seq(n, _ => s)
  }

  lemma MeansOfRepeat(s: Sample, n: nat)
    requires n > 0 && s.kneeAngle.Real?
    ensures WindowAverages(Repeat(s, n)) == Averages(s.kneeAngle, s.hipY, s.kneeY, s.backTilt)
  {
    var h := Repeat(s, n);
    var ks := KneeAngles(h);
    NumMeanNotBelow(ks, s.kneeAngle.v);
    NumMeanNotAbove(ks, s.kneeAngle.v);
    NumMeanNaN(ks);
    MeanAtLeast(HipYs(h), s.hipY);
    MeanAtMost(HipYs(h), s.hipY);
    MeanAtLeast(KneeYs(h), s.kneeY);
    MeanAtMost(KneeYs(h), s.kneeY);
    MeanAtLeast(BackTilts(h), s.backTilt);
    MeanAtMost(BackTilts(h), s.backTilt);
  }

  /** A full window of straight legs (180 degrees) with the hips well above
      the knees keeps a standing detector standing, silently. */
  lemma StraightLegsStayStanding(n: nat, count: nat)
    requires n > 0
    ensures var d := Detector(Repeat(Sample(Real(180.0), 0.3, 0.5, 0.0, 0.0), n), Standing, count);
            Judge(d) == Outcome(d, NoToast, false)
  {
    MeansOfRepeat(Sample(Real(180.0), 0.3, 0.5, 0.0, 0.0), n);
  }

  /** A full window at 90 degrees with the hips low enough moves a standing
      detector to squatting without counting. */
  lemma DeepWindowStartsSquat()
    ensures var d := Detector(Repeat(Sample(Real(90.0), 0.6, 0.5, 0.0, 0.0), WindowSize), Standing, 0);
            Judge(d) == Outcome(d.(phase := Squatting), NoToast, false)
  {
    MeansOfRepeat(Sample(Real(90.0), 0.6, 0.5, 0.0, 0.0), WindowSize);
  }

  /** After the squat, a full window at 160 degrees with the hips raised moves
      the detector to returning and, on the next frame, to standing with the
      count raised from 0 to 1 and the reward played once. */
  lemma RisingWindowCountsOnce()
    ensures var h := Repeat(Sample(Real(160.0), 0.3, 0.5, 0.0, 0.0), WindowSize);
            var first := Judge(Detector(h, Squatting, 0));
            && first == Outcome(Detector(h, Returning, 0), NoToast, false)
            && Judge(first.detector) == Outcome(Detector(h, Standing, 1), NoToast, true)
  {
    MeansOfRepeat(Sample(Real(160.0), 0.3, 0.5, 0.0, 0.0), WindowSize);
  }

  /** The window remembers: a standing detector whose window is full of deep
      samples starts a squat even on a shallow 160-degree sample, because the
      mean is still about 92 degrees. So shallow frames alone do not keep a
      detector standing; its window must hold no deep sample either. */
  lemma DeepWindowOutlastsShallowFrame()
    ensures var h := Push(Repeat(Sample(Real(90.0), 0.6, 0.5, 0.0, 0.0), WindowSize), Sample(Real(160.0), 0.6, 0.5, 0.0, 0.0));
            Judge(Detector(h, Standing, 0)).detector.phase == Squatting
  {
    var deep := Sample(Real(90.0), 0.6, 0.5, 0.0, 0.0);
    var shallow := Sample(Real(160.0), 0.6, 0.5, 0.0, 0.0);
    var h := Repeat(deep, WindowSize);
    MeansOfRepeat(deep, WindowSize);
    SlidingSums(h, shallow);
    SlidingMeans(h, shallow);
    assert NumSum(KneeAngles(h)).v == 2700.0;
    assert NumSum(KneeAngles(Push(h, shallow))).v == 2770.0;
  }
}

=== FILE: window.dfy ===
/** The fixed-capacity history buffer of the windowed detector: each processed
    frame is appended, and when the buffer exceeds its capacity the oldest
    entry is shifted out. */
module SlidingWindow {

  /** `WINDOW_SIZE` of src/app/components/DeepSquat.tsx. */
  const WindowSize: nat := 30

  /** Appends a sample and, once the buffer holds more than `WindowSize`
      entries, drops the oldest one. */
  function Push<T>(h: seq<T>, s: T): (r: seq<T>)
    ensures |r| > 0 && r[|r| - 1] == s
    ensures |h| < WindowSize ==> r == h + [s]
    ensures WindowSize <= |h| ==> r == h[1..] + [s]
    ensures |h| <= WindowSize ==> |r| <= WindowSize
    ensures |h| == WindowSize ==> |r| == WindowSize
    ensures forall x :: x in r ==> x in h || x == s
  {
    var grown := h + [s];
    if |grown| > WindowSize then grown[1..] else grown
  }

  /** The newest `n` elements of `s`, in their original order: an independent
      description of what a window of capacity `n` holds. */
  function Newest<T>(s: seq<T>, n: nat): (r: seq<T>)
    ensures |r| == if |s| <= n then |s| else n
    ensures r == s[|s| - |r|..]
  {
    if |s| <= n then s else s[|s| - n..]
  }

  /** Pushing into the window of a stream's newest elements gives the window
      of the extended stream: the buffer is first in, first out. */
  lemma PushKeepsNewest<T>(x: seq<T>, s: T)
    ensures Push(Newest(x, WindowSize), s) == Newest(x + [s], WindowSize)
  {
  }

  /** A step that pushes at most one new element keeps the window equal to the
      newest part of the stream extended by that element. */
  lemma NewestExtends<T>(x: seq<T>, extra: seq<T>, w: seq<T>)
    requires |extra| <= 1
    requires w == if |extra| == 0 then Newest(x, WindowSize) else Push(Newest(x, WindowSize), extra[0])
    ensures w == Newest(x + extra, WindowSize)
  {
    if |extra| == 0 {
      assert x + extra == x;
    } else {
      assert extra == [extra[0]];
      PushKeepsNewest(x, extra[0]);
    }
  }
}
